=== FILE: README.md ===
# Sudoku duel rooms — a Dafny model

The system is a two-player Sudoku server. Players connect to a named room
over a WebSocket. When the second player arrives the server generates a
puzzle: it draws 2 to 6 random positions in each 3x3 block and writes a
random valid digit at each of them (a position with no valid digit stays
empty, so a block can get fewer digits), solves the result by backtracking
and keeps the pre-solve board as the puzzle. Both
players then race on private copies of that puzzle. A correct digit is
written to the mover's own board. A wrong one costs one of three chances.
A game over is announced when a correct move makes a player's board equal
the solution, or when a wrong move eliminates a player and leaves exactly one
player of the room not eliminated. There is no terminal state, though: moves
after a game over are still processed, so a later completed board announces a
second game over. The model keeps that behaviour.

All of this lives in `GameConsumer` (`backend/sudoku_app/consumers.py`).
This project models its two halves:

- **The Sudoku engine** (`grid.dfy`, `solver.dfy`, `uniqueness.dfy`,
  `generator.dfy`).
  - Module `Grid` covers the constraint check `is_safe`, `find_empty` and
    `check_win`, plus the board predicates the contracts use: `ValidPartial`,
    `Complete`, `Solved`, `Extends` and `Completion`.
  - Module `Solver` is `solve_board`.
  - Module `Uniqueness` is `has_unique_solution`.
  - Module `Generator` covers `get_valid_numbers`, `fill_block` and
    `initial_board_setup` with its retry loop.
  - Boards are immutable 9x9 `seq<seq<int>>` values. Each in-place write and
    undo of the source is an explicit `Grid.Place`.
  - The recursive searches terminate on the number of empty cells.
- **The room state machine** (`rooms.dfy`, `moves.dfy`).
  - The source keeps four class-level dictionaries (`rooms`, `game_boards`,
    `solved_boards`, `player_states`). They are always created and deleted
    together, so here they are one map from room name to a `Room` record.
  - `connect`, `disconnect`, the board commit and the move branch of
    `receive` are pure functions. Each returns the new map and the messages
    the source would send, as `Event` values.
  - `Rooms.RoomInv` is the invariant they all keep:
    - one or two members, with exactly one player state per member;
    - a puzzle exactly when there is a solution, and then a valid puzzle
      whose solution is a valid completion of it;
    - chances in 0..3, and a player is eliminated exactly at 0 chances;
    - each player's board keeps the puzzle's givens and agrees with the
      solution on every filled cell.

Randomness is an oracle:
- `random.randint(2, 6)` together with `random.sample` becomes a list of 2
  to 6 distinct block positions (`Generator.IsSample`).
- `random.choice` becomes an index, read modulo the length of the
  valid-number list (`Generator.Pick`).
- The source's unbounded retry becomes a finite list of attempts
  (`Generator.Retry`). It yields None when every attempt fails.

Two behaviours of the source show up as contracts:
- A room that gets a new second player generates a new puzzle and overwrites
  every board. It does not reset chances or elimination flags, as
  `Rooms.CommitBoard` states. So a player eliminated while alone stays
  eliminated in the new game, and as the game-over test runs only after a
  wrong move, no game over is announced for that room at that point.
- When `connect` runs as one step, the branch that sends the stored board
  to a lone newly connecting player is never taken
  (`Rooms.AloneMeansNoPuzzle`). In the source `connect` awaits between adding
  the player and that test, so a partner who disconnects in between can
  still make it run.

## Model

| member | source | states |
|---|---|---|
| `Grid.IsSafe` | backend/sudoku_app/consumers.py:187-205 | the three scans answer true exactly when `num` is absent from the cell's row, its column and its 3x3 box starting at (3*(row/3), 3*(col/3)) |
| `Grid.SafeMeansUnseen` | backend/sudoku_app/consumers.py:187-205 | being safe is the same as: no cell that shares a row, column or box with (row, col) holds `num` |
| `Grid.PlaceSafeKeepsValid` | backend/sudoku_app/consumers.py:214-216 | writing a safe digit 1..9 into a valid partial board keeps it valid |
| `Grid.CompletionValueIsSafe` | backend/sudoku_app/consumers.py:214-216 | the digit any valid completion puts into an empty cell passes `is_safe` on the partial board |
| `Grid.FindEmpty` | backend/sudoku_app/consumers.py:222-228 | None exactly when no cell is 0; otherwise a zero cell, and every cell before it in row-major order is non-zero |
| `Grid.CheckWin` | backend/sudoku_app/consumers.py:381-384 | `check_win`'s cell-by-cell comparison holds exactly when the board equals the solution |
| `Solver.Solve` | backend/sudoku_app/consumers.py:207-220 | on success the board is complete and keeps every non-zero input cell, and it is a solved Sudoku when the input was a valid partial board; on failure every write has been undone and the board equals the input; a board with no empty cell succeeds unchanged |
| `Solver.TryCandidates` | backend/sudoku_app/consumers.py:214-220 | the candidate loop at one empty cell: the same success and restore guarantees, and a success leaves a digit from `num` to 9 in the cell |
| `Solver.CandidatesTriedInOrder` | backend/sudoku_app/consumers.py:214-220 | candidates are tried in ascending order: a success leaves the first safe digit from `num` on whose recursive solve succeeds, and the result is that recursive solve's |
| `Solver.SolveFindsCompletion` | backend/sudoku_app/consumers.py:207-220 | completeness: if the board has any valid completion, `solve_board` returns True |
| `Solver.CandidatesFindCompletion` | backend/sudoku_app/consumers.py:214-220 | the candidate loop succeeds whenever it has not yet passed the digit some valid completion puts in the cell |
| `Solver.SolveFailsOnlyWithoutCompletion` | backend/sudoku_app/consumers.py:118-140 | a failed solve, which sends the generator into another attempt, means the board has no valid completion |
| `Uniqueness.Search` | backend/sudoku_app/consumers.py:285-299 | the inner `solve` only appends to `solutions`, never grows it past 2, appends only complete boards that keep the givens (solved Sudokus for a valid input), and leaves its board argument as passed in |
| `Uniqueness.SearchCandidates` | backend/sudoku_app/consumers.py:294-299 | the candidate loop of the inner `solve`: the same guarantees, and every completion recorded from candidate `num` on has at least `num` in the cell |
| `Uniqueness.SearchDistinct` | backend/sudoku_app/consumers.py:285-299 | the completions the search records are pairwise different |
| `Uniqueness.CandidatesDistinct` | backend/sudoku_app/consumers.py:294-299 | completions recorded under different candidates differ in that cell, so the loop records no board twice |
| `Uniqueness.SearchComplete` | backend/sudoku_app/consumers.py:285-299 | unless the search stopped at two solutions, every valid completion of the board is among the recorded ones |
| `Uniqueness.CandidatesComplete` | backend/sudoku_app/consumers.py:294-299 | the candidate loop records a completion whose digit in the cell it has not yet passed, unless two solutions were recorded |
| `Uniqueness.HasUniqueSolution` | backend/sudoku_app/consumers.py:253-302 | on a valid partial board `has_unique_solution` is True exactly when the board has one and only one valid completion |
| `Uniqueness.OneRecordedIffOneCompletion` | backend/sudoku_app/consumers.py:285-302 | on a valid partial board the traversal records exactly one board exactly when there is one and only one valid completion |
| `Generator.ValidNumbers` | backend/sudoku_app/consumers.py:164-185 | a digit is in the list exactly when it is 1..9 and absent from the cell's row, column and box; the list is strictly ascending, so it has no duplicates |
| `Generator.ValidFrom` | backend/sudoku_app/consumers.py:164-185 | the same characterisation for the digits from `d` to 9 |
| `Generator.PickCell` | backend/sudoku_app/consumers.py:145-147 | the k-th of the nine block positions lies on the board and inside the block that starts at (startRow, startCol) |
| `Generator.PickCellInjective` | backend/sudoku_app/consumers.py:145-153 | distinct positions 0..8 name distinct cells of the block, so distinct sampled indices are distinct positions |
| `Generator.PickCellCoversBlock` | backend/sudoku_app/consumers.py:145-147 | every cell of the block is named by one of the positions 0..8 |
| `Generator.DrawnCellsDistinct` | backend/sudoku_app/consumers.py:150-153 | the cells of a `random.sample` draw are pairwise distinct |
| `Generator.FillPicks` | backend/sudoku_app/consumers.py:156-162 | the loop over the drawn positions writes only inside its block, only digits 1..9, and keeps a valid partial board valid |
| `Generator.FillPicksOnlyDrawn` | backend/sudoku_app/consumers.py:156-162 | the loop changes only cells at drawn positions |
| `Generator.FillPicksFillsWhatFits` | backend/sudoku_app/consumers.py:156-162 | with no cell drawn twice and every drawn cell empty at the start, the loop only fills empty cells, and every drawn cell ends up holding a digit unless no number is valid for it |
| `Generator.FillBlock` | backend/sudoku_app/consumers.py:142-162 | `fill_block` writes only cells at the drawn positions of its own 3x3 block, only digits 1..9, and keeps a valid partial board valid; when the drawn cells start empty, each of them ends up holding a digit unless no number is valid for it |
| `Generator.FillBlocksFrom` | backend/sudoku_app/consumers.py:110-112 | filling the blocks in row-major order keeps a valid partial board valid |
| `Generator.FilledBoard` | backend/sudoku_app/consumers.py:106-112 | the board built from an empty one by filling all nine blocks is a valid partial board |
| `Generator.SolveAndStore` | backend/sudoku_app/consumers.py:114-124 | the board copied before solving is stored as the puzzle, and the board `solve_board` leaves behind is stored as the solution, which is a valid completion of the puzzle; the solve fails exactly when the filled board has no valid completion |
| `Generator.InitialBoardSetup` | backend/sudoku_app/consumers.py:104-124 | a successful attempt stores the pre-solve board as the puzzle and the board `solve_board` leaves behind as its solution, a valid completion of the puzzle; an attempt fails exactly when the filled board has no valid completion |
| `Generator.Retry` | backend/sudoku_app/consumers.py:136-140 | the retry loop yields None exactly when every attempt fails, and otherwise the result of the first attempt that succeeds |
| `Generator.Generate` | backend/sudoku_app/consumers.py:104-140 | whatever the generation returns is a valid puzzle with a valid completion, and it gives up only when every attempt failed |
| `Rooms.FreshPlayer` | backend/sudoku_app/consumers.py:36-45 | a new player has 3 chances, is not eliminated, and gets a copy of the room's puzzle, or an all-zero board when there is none |
| `Rooms.Admit` | backend/sudoku_app/consumers.py:41-48 | admitting adds the player to the members with a fresh state and leaves every other player, the puzzle and the solution as they were |
| `Rooms.Join` | backend/sudoku_app/consumers.py:25-51 | joining a room with two members changes nothing; otherwise the player is added to the members with a fresh state, the room is created if missing, and no other player or room changes |
| `Rooms.CommitBoard` | backend/sudoku_app/consumers.py:118-128 | the commit stores the puzzle and solution and overwrites every player's board with the puzzle, keeping members, chances and elimination flags |
| `Rooms.Connect` | backend/sudoku_app/consumers.py:19-74 | a turned-away player is closed and nothing changes; an admitted player is accepted and the room is told the member count last; the second member's arrival commits a generated board and broadcasts it; otherwise the tables are exactly `Join`'s, and a player joining a room that has a board is sent their own copy and chances; other rooms are untouched |
| `Rooms.Leave` | backend/sudoku_app/consumers.py:76-87 | leaving removes the player from the members and the player states, and the room record is deleted exactly when no member is left; nothing else changes |
| `Rooms.Drop` | backend/sudoku_app/consumers.py:77-80 | dropping removes the player from the members and the player states and keeps every other player, the puzzle and the solution |
| `Rooms.Disconnect` | backend/sudoku_app/consumers.py:76-102 | after leaving, the room is told its new member count only if it still exists |
| `Rooms.JoinThenLeaveRestores` | backend/sudoku_app/consumers.py:25-87 | a new player who joins and leaves leaves the tables exactly as they were |
| `Rooms.DropUndoesAdmit` | backend/sudoku_app/consumers.py:41-80 | dropping a player just admitted gives back the room as it was |
| `Rooms.AloneMeansNoPuzzle` | backend/sudoku_app/consumers.py:58-67 | a new player admitted as the only member finds no puzzle, so when `connect` runs as one step its `elif` branch is dead for fresh connections |
| `Rooms.AdmitKeepsConsistent` | backend/sudoku_app/consumers.py:32-48 | admitting a player into a consistent room with fewer than two members gives a room that keeps the invariant, the fresh state included |
| `Rooms.DropKeepsConsistent` | backend/sudoku_app/consumers.py:77-80 | dropping a player keeps a room consistent, short of its emptiness |
| `Rooms.JoinPreservesInv` | backend/sudoku_app/consumers.py:25-51 | joining keeps the room invariant: at most two members, states keyed by members, chances 0..3, boards consistent with the solution |
| `Rooms.CommitPreservesInv` | backend/sudoku_app/consumers.py:118-128 | committing a valid generated puzzle keeps the room invariant |
| `Rooms.ConnectPreservesInv` | backend/sudoku_app/consumers.py:19-74 | `connect` keeps the invariant whenever the generated board is a valid puzzle with a valid completion |
| `Rooms.ConnectGeneratedPreservesInv` | backend/sudoku_app/consumers.py:58-59 | with the board the generator actually produces, `connect` keeps the invariant |
| `Rooms.DisconnectPreservesInv` | backend/sudoku_app/consumers.py:76-87 | `disconnect` keeps the room invariant |
| `Moves.SplitCount` | backend/sudoku_app/consumers.py:389-394 | the eliminated and the live players together make up the room |
| `Moves.CheckGameOver` | backend/sudoku_app/consumers.py:386-401 | game over is declared exactly when the eliminated count is the room's player count minus 1, and the winner is then the unique player not eliminated |
| `Moves.Moved` | backend/sudoku_app/consumers.py:332-377 | a correct digit is written to that one cell of the mover's board with the chances kept; a wrong one keeps the board, costs exactly one chance and eliminates exactly when the chances run out |
| `Moves.ApplyMove` | backend/sudoku_app/consumers.py:312-379 | an eliminated player's move is answered with an error and changes nothing; a correct move writes only that cell of the mover's own board, keeps the chances, and either announces the mover as winner (exactly when the board now equals the solution) or answers with a successful `move_result`; a wrong move keeps the board, costs exactly one chance, eliminates exactly at 0, is answered with a failed `move_result` carrying the chances left, and is followed by nothing but a game over, sent exactly when the chances reach 0 and `check_game_over` names a winner; other players and rooms are untouched |
| `Moves.CorrectMoveWinsIffSolved` | backend/sudoku_app/consumers.py:332-351 | corollary of the `Moves.ApplyMove` contract, stated as an iff: a correct move announces the mover as winner exactly when the mover's board now equals the solution |
| `Moves.LastChanceHandsWinToOpponent` | backend/sudoku_app/consumers.py:361-379 | in a room of two, a wrong move on the last chance announces the opponent as winner while the opponent is still in the game |
| `Moves.LastStandingWins` | backend/sudoku_app/consumers.py:386-401 | in a room of at most two, one eliminated player and one live player make `check_game_over` name the live one |
| `Moves.MovedKeepsPlayerInv` | backend/sudoku_app/consumers.py:332-377 | a move by a live player keeps the chances in range, elimination tied to 0 chances, and the board between puzzle and solution |
| `Moves.ReplacePlayerKeepsRoomInv` | backend/sudoku_app/consumers.py:321-377 | replacing one player's state by one that keeps the per-player invariant keeps the room invariant |
| `Moves.ApplyMovePreservesInv` | backend/sudoku_app/consumers.py:321-379 | every move keeps the room invariant; in particular a board only ever gains digits that agree with the solution |

## Left out

- Channel-layer and WebSocket I/O is not modelled: `accept`, `close`, `send`, `group_add`, `group_discard` and `group_send`. The messages become `Rooms.Event` values addressed to one player or to the room group.
- The group handlers `board_update`, `game_over` and `player_update` (consumers.py:304-310, 403-415) are left out. They re-encode a group message per recipient, adding the recipient's chances or an `is_winner` flag.
- JSON decoding in `receive` is left out. The move's `row`, `col` and `value` are parameters, and a message without a `move` key does nothing in the source.
- The debug `print` calls are left out.
- asyncio scheduling and concurrent consumers are left out. Every transition is one atomic step.
- Python's `random` module is an oracle. `Generator.Pick` and `Generator.IsSample` describe the draws, so the model says nothing about their distribution.
- `Generator.Retry`: the source retries by awaiting itself recursively, so it has no fixed bound, and a long enough run of failures ends in a `RecursionError`. The model takes a finite list of attempts and returns None once all of them fail.
- `Rooms.Connect`: the generated board is passed in as a parameter. `Rooms.ConnectGeneratedPreservesInv` links it to `Generator.Generate`.
- `Rooms.Connect`: with `generated` None, which stands for every attempt having failed, the second member's arrival commits no board and still sends the member count. The source has no such outcome: it keeps retrying, or fails with a `RecursionError` before sending the board or the member count.
- The consumer's own `self.board` field is not modelled. Generation works on a local board, and only the committed puzzle and solution are state.
- `create_puzzle` (consumers.py:230-251) is left out because the live flow never calls it. Its helper `has_unique_solution` is modelled.
- `views.py`, `urls.py` and `asgi.py` are HTTP and routing glue with no game state. They are not part of this model.
- `Moves.ApplyMove`: some moves raise an exception in the source and so have no defined outcome. A missing room or player raises `KeyError`. A move by a live player before any solution is stored raises `TypeError`, as it indexes `None`. A row or column of 9 or more raises `IndexError`, and a negative one is read from the end of the list in Python. `Moves.MoveAllowed` excludes them as a precondition.
- `Uniqueness.HasUniqueSolution` is stated only for valid partial boards. On a board that already breaks a rule, the source's search may record boards that are not valid Sudokus.
- `Solver.Solve` promises a solved Sudoku only for a valid partial input. For other inputs it promises a complete board that keeps the givens.
- `Moves.LastChanceHandsWinToOpponent` is stated for rooms of at most two players, the only rooms the invariant allows.

=== FILE: generator.dfy ===
/** Puzzle generation: `get_valid_numbers`, `fill_block` and
    `initial_board_setup`. The source draws from Python's `random` module; here
    every draw is an explicit argument (an oracle), so the functions are
    deterministic in their inputs. */
module Generator {
  import opened Wrappers
  import opened Grid
  import opened Solver

  /** `get_valid_numbers`: the digits 1..9 that do not occur in the cell's row,
      column or box, in ascending order (the order in which CPython lists a
      set of small integers). */
  function ValidNumbers(b: Board, row: int, col: int): (r: seq<int>)
    requires IsGrid(b) && InRange(row, col)
    ensures forall d :: d in r <==> 1 <= d <= 9 && Safe(b, row, col, d)
    ensures forall k1, k2 :: 0 <= k1 < k2 < |r| ==> r[k1] < r[k2]
  {
    ValidFrom(b, row, col, 1)
  }

  /** The candidates for the cell among `d`..9. */
  function ValidFrom(b: Board, row: int, col: int, d: int): (r: seq<int>)
    requires IsGrid(b) && InRange(row, col) && 1 <= d <= 10
    ensures forall x :: x in r <==> d <= x <= 9 && Safe(b, row, col, x)
    ensures forall k1, k2 :: 0 <= k1 < k2 < |r| ==> r[k1] < r[k2]
    decreases 10 - d
  {
    if d > 9 then []
    else
      var rest := ValidFrom(b, row, col, d + 1);
      assert forall k :: 0 <= k < |rest| ==> rest[k] in rest;
      if Safe(b, row, col, d) then [d] + rest else rest
  }

  /** One position drawn by `random.sample` (an index 0..8 into the block's
      row-major position list) and the index `random.choice` draws from the
      list of valid numbers for it; the index is read modulo the list's
      length, so every draw names an element. */
  datatype Pick = Pick(cell: nat, choice: nat)

  /** What `random.sample(positions, random.randint(2, 6))` can return:
      2 to 6 distinct positions of the block. */
  predicate IsSample(picks: seq<Pick>) {
    && 2 <= |picks| <= 6
    && (forall k :: 0 <= k < |picks| ==> picks[k].cell < 9)
    && (forall k1, k2 :: 0 <= k1 < k2 < |picks| ==> picks[k1].cell != picks[k2].cell)
  }

  /** The random draws of one `initial_board_setup` attempt: one sample per
      block, blocks in the order (0,0), (0,3), (0,6), (3,0), ..., (6,6). */
  predicate IsAttempt(blocks: seq<seq<Pick>>) {
    |blocks| == 9 && forall k :: 0 <= k < 9 ==> IsSample(blocks[k])
  }

  /** The block corner the source's `range(0, 9, 3)` loops reach. */
  predicate IsCorner(start: int) {
    start == 0 || start == 3 || start == 6
  }

  predicate InBlock(startRow: int, startCol: int, i: int, j: int) {
    startRow <= i < startRow + 3 && startCol <= j < startCol + 3
  }

  /** `r` differs from `b` only inside the block whose corner is
      (startRow, startCol), and only by holding digits 1..9 there. */
  predicate ChangesOnlyBlock(b: Board, r: Board, startRow: int, startCol: int)
    requires IsGrid(b) && IsGrid(r)
  {
    forall i, j :: 0 <= i < 9 && 0 <= j < 9 && r[i][j] != b[i][j] ==>
      InBlock(startRow, startCol, i, j) && 1 <= r[i][j] <= 9
  }

  lemma ChangesOnlyBlockTrans(a: Board, b: Board, c: Board, startRow: int, startCol: int)
    requires IsGrid(a) && IsGrid(b) && IsGrid(c)
    requires ChangesOnlyBlock(a, b, startRow, startCol) && ChangesOnlyBlock(b, c, startRow, startCol)
    ensures ChangesOnlyBlock(a, c, startRow, startCol)
  {
    forall i, j | 0 <= i < 9 && 0 <= j < 9 && c[i][j] != a[i][j]
      ensures InBlock(startRow, startCol, i, j) && 1 <= c[i][j] <= 9
    {
      if c[i][j] == b[i][j] {
        assert b[i][j] != a[i][j];
      }
    }
  }

  /** The cell of the block that a drawn position 0..8 names, row-major. */
  function PickCell(startRow: int, startCol: int, cell: nat): (c: Cell)
    requires IsCorner(startRow) && IsCorner(startCol) && cell < 9
    ensures InRange(c.row, c.col) && InBlock(startRow, startCol, c.row, c.col)
  {
    Cell(startRow + cell / 3, startCol + cell % 3)
  }

  /** The loop body of `fill_block` over the drawn positions, in draw order:
      a position with at least one valid number gets one of them; a position
      without one is left alone. */
  function FillPicks(b: Board, startRow: int, startCol: int, picks: seq<Pick>): (r: Board)
    requires IsGrid(b) && IsCorner(startRow) && IsCorner(startCol)
    requires forall k :: 0 <= k < |picks| ==> picks[k].cell < 9
    ensures IsGrid(r)
    ensures ChangesOnlyBlock(b, r, startRow, startCol)
    ensures ValidPartial(b) ==> ValidPartial(r)
    decreases |picks|
  {
    if |picks| == 0 then b
    else
      var at := PickCell(startRow, startCol, picks[0].cell);
      var valid := ValidNumbers(b, at.row, at.col);
      if |valid| == 0 then FillPicks(b, startRow, startCol, picks[1..])
      else
        var value := valid[picks[0].choice % |valid|];
        assert value in valid;
        PlaceSafeKeepsValid(b, at.row, at.col, value);
        var placed := Place(b, at.row, at.col, value);
        var r := FillPicks(placed, startRow, startCol, picks[1..]);
        ChangesOnlyBlockTrans(b, placed, r, startRow, startCol);
        r
  }

  /** Distinct positions 0..8 name distinct cells of the block. */
  lemma PickCellInjective(startRow: int, startCol: int, k1: nat, k2: nat)
    requires IsCorner(startRow) && IsCorner(startCol) && k1 < 9 && k2 < 9 && k1 != k2
    ensures PickCell(startRow, startCol, k1) != PickCell(startRow, startCol, k2)
  {
    assert k1 == 3 * (k1 / 3) + k1 % 3 && k2 == 3 * (k2 / 3) + k2 % 3;
  }

  /** Every cell of the block is named by one of the positions 0..8, so the
      nine positions are exactly the nine cells of the block. */
  lemma PickCellCoversBlock(startRow: int, startCol: int, i: int, j: int)
    requires IsCorner(startRow) && IsCorner(startCol) && InBlock(startRow, startCol, i, j)
    ensures 0 <= 3 * (i - startRow) + (j - startCol) < 9
    ensures PickCell(startRow, startCol, 3 * (i - startRow) + (j - startCol)) == Cell(i, j)
  {
  }

  /** The cells the drawn positions name, in draw order. */
  function DrawnCells(startRow: int, startCol: int, picks: seq<Pick>): (cells: seq<Cell>)
    requires IsCorner(startRow) && IsCorner(startCol)
    requires forall k :: 0 <= k < |picks| ==> picks[k].cell < 9
    ensures |cells| == |picks|
    ensures forall k :: 0 <= k < |picks| ==> cells[k] == PickCell(startRow, startCol, picks[k].cell)
    ensures forall c :: c in cells ==> InRange(c.row, c.col) && InBlock(startRow, startCol, c.row, c.col)
    decreases |picks|
  {
    if |picks| == 0 then []
    else [PickCell(startRow, startCol, picks[0].cell)] + DrawnCells(startRow, startCol, picks[1..])
  }

  /** No cell occurs twice. */
  predicate Distinct(cells: seq<Cell>) {
    forall k1, k2 :: 0 <= k1 < k2 < |cells| ==> cells[k1] != cells[k2]
  }

  /** The head of a list without repeats does not recur in its tail, and the
      tail has no repeats. */
  lemma DistinctTail(cells: seq<Cell>)
    requires Distinct(cells) && |cells| > 0
    ensures cells[0] !in cells[1..] && Distinct(cells[1..])
  {
    forall k1, k2 | 0 <= k1 < k2 < |cells| - 1
      ensures cells[1..][k1] != cells[1..][k2]
    {
      assert cells[k1 + 1] != cells[k2 + 1];
    }
  }

  /** The positions of a `random.sample` draw name pairwise distinct cells. */
  lemma DrawnCellsDistinct(startRow: int, startCol: int, picks: seq<Pick>)
    requires IsCorner(startRow) && IsCorner(startCol) && IsSample(picks)
    ensures Distinct(DrawnCells(startRow, startCol, picks))
  {
    var cells := DrawnCells(startRow, startCol, picks);
    forall k1, k2 | 0 <= k1 < k2 < |cells|
      ensures cells[k1] != cells[k2]
    {
      PickCellInjective(startRow, startCol, picks[k1].cell, picks[k2].cell);
    }
  }

  /** A digit that is not safe on a board stays unsafe on any board that keeps
      its filled cells. */
  lemma ExtendsKeepsUnsafe(b: Board, r: Board, row: int, col: int, d: int)
    requires Extends(r, b) && InRange(row, col) && d != 0
    ensures Safe(r, row, col, d) ==> Safe(b, row, col, d)
  {
  }

  /** A cell for which no number is valid has none on any board that keeps
      the filled cells. */
  lemma NoneFitsStaysNone(b: Board, r: Board, row: int, col: int)
    requires Extends(r, b) && InRange(row, col) && ValidNumbers(b, row, col) == []
    ensures ValidNumbers(r, row, col) == []
  {
    forall d | 1 <= d <= 9
      ensures !Safe(r, row, col, d)
    {
      ExtendsKeepsUnsafe(b, r, row, col, d);
      assert d !in ValidNumbers(b, row, col);
    }
  }

  /** The loop of `fill_block` changes only cells at drawn positions. */
  lemma {:induction false} FillPicksOnlyDrawn(b: Board, startRow: int, startCol: int, picks: seq<Pick>)
    requires IsGrid(b) && IsCorner(startRow) && IsCorner(startCol)
    requires forall k :: 0 <= k < |picks| ==> picks[k].cell < 9
    ensures var r := FillPicks(b, startRow, startCol, picks);
            forall i, j :: 0 <= i < 9 && 0 <= j < 9 && r[i][j] != b[i][j] ==> Cell(i, j) in DrawnCells(startRow, startCol, picks)
    decreases |picks|
  {
    if |picks| > 0 {
      var at := PickCell(startRow, startCol, picks[0].cell);
      var valid := ValidNumbers(b, at.row, at.col);
      var tail := picks[1..];
      var r := FillPicks(b, startRow, startCol, picks);
      assert DrawnCells(startRow, startCol, picks) == [at] + DrawnCells(startRow, startCol, tail);
      if |valid| == 0 {
        FillPicksOnlyDrawn(b, startRow, startCol, tail);
      } else {
        var placed := Place(b, at.row, at.col, valid[picks[0].choice % |valid|]);
        FillPicksOnlyDrawn(placed, startRow, startCol, tail);
        assert r == FillPicks(placed, startRow, startCol, tail);
      }
    }
  }

  /** When no cell is drawn twice and every drawn cell starts empty, the loop
      of `fill_block` only fills empty cells, and every drawn cell ends up
      holding a digit unless no number is valid for it. */
  lemma {:induction false} FillPicksFillsWhatFits(b: Board, startRow: int, startCol: int, picks: seq<Pick>)
    requires IsGrid(b) && IsCorner(startRow) && IsCorner(startCol)
    requires forall k :: 0 <= k < |picks| ==> picks[k].cell < 9
    requires Distinct(DrawnCells(startRow, startCol, picks))
    requires forall c :: c in DrawnCells(startRow, startCol, picks) ==> b[c.row][c.col] == 0
    ensures var r := FillPicks(b, startRow, startCol, picks);
            && Extends(r, b)
            && forall c :: c in DrawnCells(startRow, startCol, picks) ==>
                 r[c.row][c.col] != 0 || ValidNumbers(r, c.row, c.col) == []
    decreases |picks|
  {
    var r := FillPicks(b, startRow, startCol, picks);
    if |picks| > 0 {
      var at := PickCell(startRow, startCol, picks[0].cell);
      var valid := ValidNumbers(b, at.row, at.col);
      var tail := picks[1..];
      var cells, rest := DrawnCells(startRow, startCol, picks), DrawnCells(startRow, startCol, tail);
      assert cells == [at] + rest;
      DistinctTail(cells);
      assert rest == cells[1..];
      if |valid| == 0 {
        FillPicksFillsWhatFits(b, startRow, startCol, tail);
        NoneFitsStaysNone(b, r, at.row, at.col);
      } else {
        var value := valid[picks[0].choice % |valid|];
        assert value in valid;
        var placed := Place(b, at.row, at.col, value);
        assert forall c :: c in rest ==> c != at && placed[c.row][c.col] == 0;
        FillPicksFillsWhatFits(placed, startRow, startCol, tail);
        assert r == FillPicks(placed, startRow, startCol, tail);
        assert Extends(placed, b);
        assert r[at.row][at.col] == value;
      }
    } else {
      assert Extends(r, b);
    }
  }

  /** `fill_block`: writes only cells at the drawn positions of its own 3x3
      block, only digits that are valid there at the moment of writing, so a
      valid partial board stays valid. When the drawn cells start empty, each
      of them ends up with a digit unless no number is valid for it. */
  function FillBlock(b: Board, startRow: int, startCol: int, picks: seq<Pick>): (r: Board)
    requires IsGrid(b) && IsCorner(startRow) && IsCorner(startCol) && IsSample(picks)
    ensures IsGrid(r)
    ensures forall i, j :: 0 <= i < 9 && 0 <= j < 9 && !InBlock(startRow, startCol, i, j) ==> r[i][j] == b[i][j]
    ensures forall i, j :: 0 <= i < 9 && 0 <= j < 9 && r[i][j] != b[i][j] ==>
              1 <= r[i][j] <= 9 && Cell(i, j) in DrawnCells(startRow, startCol, picks)
    ensures ValidPartial(b) ==> ValidPartial(r)
    ensures (forall c :: c in DrawnCells(startRow, startCol, picks) ==> b[c.row][c.col] == 0) ==>
              forall c :: c in DrawnCells(startRow, startCol, picks) ==>
                r[c.row][c.col] != 0 || ValidNumbers(r, c.row, c.col) == []
  {
    FillPicksOnlyDrawn(b, startRow, startCol, picks);
    DrawnCellsDistinct(startRow, startCol, picks);
    FillBlockFills(b, startRow, startCol, picks);
    FillPicks(b, startRow, startCol, picks)
  }

  /** `FillPicksFillsWhatFits` with its emptiness hypothesis as a premise. */
  lemma FillBlockFills(b: Board, startRow: int, startCol: int, picks: seq<Pick>)
    requires IsGrid(b) && IsCorner(startRow) && IsCorner(startCol) && IsSample(picks)
    requires Distinct(DrawnCells(startRow, startCol, picks))
    ensures (forall c :: c in DrawnCells(startRow, startCol, picks) ==> b[c.row][c.col] == 0) ==>
              var r := FillPicks(b, startRow, startCol, picks);
              forall c :: c in DrawnCells(startRow, startCol, picks) ==>
                r[c.row][c.col] != 0 || ValidNumbers(r, c.row, c.col) == []
  {
    if forall c :: c in DrawnCells(startRow, startCol, picks) ==> b[c.row][c.col] == 0 {
      FillPicksFillsWhatFits(b, startRow, startCol, picks);
    }
  }

  /** The nested `for block_row ... for block_col` loop of
      `initial_board_setup`, from block `k` (row-major) on. */
  function FillBlocksFrom(b: Board, blocks: seq<seq<Pick>>, k: nat): (r: Board)
    requires IsGrid(b) && IsAttempt(blocks) && k <= 9
    ensures IsGrid(r)
    ensures ValidPartial(b) ==> ValidPartial(r)
    decreases 9 - k
  {
    if k == 9 then b
    else FillBlocksFrom(FillBlock(b, 3 * (k / 3), 3 * (k % 3), blocks[k]), blocks, k + 1)
  }

  /** The pre-solve board of an attempt: an empty board with every block filled. */
  function FilledBoard(blocks: seq<seq<Pick>>): (r: Board)
    requires IsAttempt(blocks)
    ensures ValidPartial(r)
  {
    EmptyBoardIsValid();
    FillBlocksFrom(EmptyBoard(), blocks, 0)
  }

  /** A generated puzzle and its solution, as stored in `game_boards` and
      `solved_boards`. */
  datatype Generated = Generated(puzzle: Board, solution: Board)

  /** The second half of an `initial_board_setup` attempt, on the filled
      board: keep a copy, solve, and on success store the copy as the puzzle
      and the solved board as its solution. It fails exactly when the board
      has no valid completion. */
  function SolveAndStore(puzzle: Board): (r: Option<Generated>)
    requires ValidPartial(puzzle)
    ensures r.Some? ==> r.value.puzzle == puzzle && Completion(r.value.solution, puzzle)
    ensures r.Some? ==> r.value.solution == Solve(puzzle).board
    ensures r.None? <==> forall s :: !Completion(s, puzzle)
  {
    var out := Solve(puzzle);
    SolveFailsOnlyWithoutCompletion(puzzle);
    if out.solved then
      assert Completion(out.board, puzzle);
      Some(Generated(puzzle, out.board))
    else None
  }

  /** One attempt of `initial_board_setup`: fill the blocks of an empty
      board, then solve and store. */
  function InitialBoardSetup(blocks: seq<seq<Pick>>): (r: Option<Generated>)
    requires IsAttempt(blocks)
    ensures r.Some? ==> r.value.puzzle == FilledBoard(blocks)
    ensures r.Some? ==> ValidPartial(r.value.puzzle) && Completion(r.value.solution, r.value.puzzle)
    ensures r.Some? ==> r.value.solution == Solve(FilledBoard(blocks)).board
    ensures r.None? <==> forall s :: !Completion(s, FilledBoard(blocks))
  {
    SolveAndStore(FilledBoard(blocks))
  }

  /** The `while True` loop around `initial_board_setup`, over a finite list
      of attempts: the first attempt whose setup succeeds is kept; running out
      of attempts yields None. */
  function Retry<A, G>(attempts: seq<A>, setup: A --> Option<G>): (r: Option<G>)
    requires forall k :: 0 <= k < |attempts| ==> setup.requires(attempts[k])
    ensures r.None? <==> forall k :: 0 <= k < |attempts| ==> setup(attempts[k]).None?
    ensures r.Some? ==> exists k :: 0 <= k < |attempts| && setup(attempts[k]) == r
                          && forall j :: 0 <= j < k ==> setup(attempts[j]).None?
    decreases |attempts|
  {
    if |attempts| == 0 then None
    else if setup(attempts[0]).Some? then setup(attempts[0])
    else
      var r := Retry(attempts[1..], setup);
      assert forall k :: 1 <= k < |attempts| ==> attempts[k] == attempts[1..][k - 1];
      r
  }

  function Generate(attempts: seq<seq<seq<Pick>>>): (r: Option<Generated>)
    requires forall k :: 0 <= k < |attempts| ==> IsAttempt(attempts[k])
    ensures r.Some? ==> ValidPartial(r.value.puzzle) && Completion(r.value.solution, r.value.puzzle)
    ensures r.None? <==> forall k :: 0 <= k < |attempts| ==> InitialBoardSetup(attempts[k]).None?
  {
    Retry(attempts, InitialBoardSetup)
  }
}

=== FILE: grid.dfy ===
/** The 9x9 Sudoku grid shared by the solver, the uniqueness search, the
    puzzle generator and the per-player game state. A cell holding 0 is empty. */
module Grid {
  import opened Wrappers

  type Board = seq<seq<int>>

  /** A cell position, as `find_empty` returns it. */
  datatype Cell = Cell(row: int, col: int)

  /** The board has nine rows of nine cells. */
  predicate IsGrid(b: Board) {
    |b| == 9 && forall i :: 0 <= i < 9 ==> |b[i]| == 9
  }

  predicate InRange(row: int, col: int) {
    0 <= row < 9 && 0 <= col < 9
  }

  /** First row (or column) of the 3x3 box holding index `i`, `3 * (i // 3)`;
      Dafny's division agrees with floor division for the indices 0..8 used here. */
  function BoxStart(i: int): int {
    3 * (i / 3)
  }

  lemma BoxStartValues(i: int)
    requires 0 <= i < 9
    ensures BoxStart(i) == (if i < 3 then 0 else if i < 6 then 3 else 6)
  {
  }

  /** Two cells constrain each other: same row, same column or same box. */
  predicate Sees(r1: int, c1: int, r2: int, c2: int) {
    r1 == r2 || c1 == c2 || (BoxStart(r1) == BoxStart(r2) && BoxStart(c1) == BoxStart(c2))
  }

  /** The all-empty board every room and every first player starts from. */
  function EmptyBoard(): (b: Board)
    ensures IsGrid(b)
    ensures forall i, j :: 0 <= i < 9 && 0 <= j < 9 ==> b[i][j] == 0
  {
    seq(9, _ => seq(9, _ => 0))
  }

  lemma EmptyBoardIsValid()
    ensures ValidPartial(EmptyBoard())
  {
    var e := EmptyBoard();
    assert forall i, j :: 0 <= i < 9 && 0 <= j < 9 ==> e[i][j] == 0;
  }

  /** `board[row][col] = v` on an immutable board. */
  function Place(b: Board, row: int, col: int, v: int): (r: Board)
    requires IsGrid(b) && InRange(row, col)
    ensures IsGrid(r)
    ensures r[row][col] == v
    ensures forall i, j :: 0 <= i < 9 && 0 <= j < 9 && (i != row || j != col) ==> r[i][j] == b[i][j]
  {
    b[row := b[row][col := v]]
  }

  /** Writing a cell and then writing its old empty value back restores the board. */
  lemma PlaceUndo(b: Board, row: int, col: int, v: int)
    requires IsGrid(b) && InRange(row, col) && b[row][col] == 0
    ensures Place(Place(b, row, col, v), row, col, 0) == b
  {
    var u := Place(Place(b, row, col, v), row, col, 0);
    SameCellsSameBoard(u, b);
  }

  /** Two grids that agree on all 81 cells are the same board. */
  lemma SameCellsSameBoard(a: Board, b: Board)
    requires IsGrid(a) && IsGrid(b)
    requires forall i, j :: 0 <= i < 9 && 0 <= j < 9 ==> a[i][j] == b[i][j]
    ensures a == b
  {
    forall i | 0 <= i < 9
      ensures a[i] == b[i]
    {
      assert forall j :: 0 <= j < 9 ==> a[i][j] == b[i][j];
    }
  }

  // ---------------------------------------------------------------------------
  // The constraint check (`is_safe`)
  // ---------------------------------------------------------------------------

  /** `num` appears nowhere in row `row`, nowhere in column `col`, and nowhere in
      the 3x3 box whose top-left cell is (BoxStart(row), BoxStart(col)). */
  predicate Safe(b: Board, row: int, col: int, num: int)
    requires IsGrid(b) && InRange(row, col)
  {
    && (forall x :: 0 <= x < 9 ==> b[row][x] != num)
    && (forall x {:trigger b[x][col]} :: 0 <= x < 9 ==> b[x][col] != num)
    && (forall i, j {:trigger b[i][j]} :: 0 <= i < 9 && 0 <= j < 9 && BoxStart(i) == BoxStart(row) && BoxStart(j) == BoxStart(col) ==> b[i][j] != num)
  }

  /** The same check phrased over every cell the position sees. */
  lemma SafeMeansUnseen(b: Board, row: int, col: int, num: int)
    requires IsGrid(b) && InRange(row, col)
    ensures Safe(b, row, col, num) <==> forall i, j :: 0 <= i < 9 && 0 <= j < 9 && Sees(row, col, i, j) ==> b[i][j] != num
  {
  }

  /** `is_safe`: the row scan, the column scan and the box scan of the source,
      each returning False at the first occurrence of `num`. */
  method IsSafe(b: Board, row: int, col: int, num: int) returns (safe: bool)
    requires IsGrid(b) && InRange(row, col)
    ensures safe <==> Safe(b, row, col, num)
  {
    for x := 0 to 9
      invariant forall y :: 0 <= y < x ==> b[row][y] != num
    {
      if b[row][x] == num {
        return false;
      }
    }
    for x := 0 to 9
      invariant forall y :: 0 <= y < x ==> b[y][col] != num
    {
      if b[x][col] == num {
        return false;
      }
    }
    var startRow, startCol := BoxStart(row), BoxStart(col);
    BoxStartValues(row);
    BoxStartValues(col);
    for i := 0 to 3
      invariant forall r, c :: 0 <= r < 9 && 0 <= c < 9 && startRow <= r < startRow + i && startCol <= c < startCol + 3 ==> b[r][c] != num
    {
      for j := 0 to 3
        invariant forall r, c ::
                    0 <= r < 9 && 0 <= c < 9 && startCol <= c < startCol + 3 &&
                    (startRow <= r < startRow + i || (r == startRow + i && c < startCol + j))
                    ==> b[r][c] != num
      {
        if b[startRow + i][startCol + j] == num {
          BoxStartValues(startRow + i);
          BoxStartValues(startCol + j);
          return false;
        }
      }
    }
    forall r, c {:trigger b[r][c]} | 0 <= r < 9 && 0 <= c < 9 && BoxStart(r) == startRow && BoxStart(c) == startCol
      ensures b[r][c] != num
    {
      BoxStartValues(r);
      BoxStartValues(c);
    }
    return true;
  }

  // ---------------------------------------------------------------------------
  // Board states
  // ---------------------------------------------------------------------------

  /** Every cell holds 0 (empty) or a digit 1..9. */
  predicate Digits(b: Board)
    requires IsGrid(b)
  {
    forall i, j :: 0 <= i < 9 && 0 <= j < 9 ==> 0 <= b[i][j] <= 9
  }

  /** No non-zero digit is repeated in a row, a column or a box. */
  predicate NoClash(b: Board)
    requires IsGrid(b)
  {
    forall i1, j1, i2, j2 ::
      0 <= i1 < 9 && 0 <= j1 < 9 && 0 <= i2 < 9 && 0 <= j2 < 9 && (i1 != i2 || j1 != j2) && Sees(i1, j1, i2, j2) && b[i1][j1] != 0
      ==> b[i1][j1] != b[i2][j2]
  }

  /** A valid partial board: digits only, and no duplicate non-zero digit in any
      row, column or box. */
  predicate ValidPartial(b: Board) {
    IsGrid(b) && Digits(b) && NoClash(b)
  }

  /** No cell is empty. */
  predicate Complete(b: Board) {
    IsGrid(b) && forall i, j :: 0 <= i < 9 && 0 <= j < 9 ==> b[i][j] != 0
  }

  /** A finished Sudoku: complete, and valid. */
  predicate Solved(b: Board) {
    ValidPartial(b) && Complete(b)
  }

  /** `s` keeps every non-zero cell of `b`. */
  predicate Extends(s: Board, b: Board) {
    IsGrid(s) && IsGrid(b) && forall i, j :: 0 <= i < 9 && 0 <= j < 9 && b[i][j] != 0 ==> s[i][j] == b[i][j]
  }

  /** `s` is a finished Sudoku that keeps the givens of `b`. */
  predicate Completion(s: Board, b: Board) {
    Solved(s) && Extends(s, b)
  }

  /** Writing a safe digit into a valid partial board keeps it valid. This is
      the step both `solve_board` and `fill_block` rely on. */
  lemma PlaceSafeKeepsValid(b: Board, row: int, col: int, num: int)
    requires IsGrid(b) && InRange(row, col) && 1 <= num <= 9 && Safe(b, row, col, num)
    ensures ValidPartial(b) ==> ValidPartial(Place(b, row, col, num))
  {
    if ValidPartial(b) {
      var r := Place(b, row, col, num);
      SafeMeansUnseen(b, row, col, num);
      forall i1, j1, i2, j2 |
        0 <= i1 < 9 && 0 <= j1 < 9 && 0 <= i2 < 9 && 0 <= j2 < 9 && (i1 != i2 || j1 != j2) && Sees(i1, j1, i2, j2) && r[i1][j1] != 0
        ensures r[i1][j1] != r[i2][j2]
      {
        if i1 == row && j1 == col {
          assert Sees(row, col, i2, j2);
        } else if i2 == row && j2 == col {
          assert Sees(row, col, i1, j1);
        }
      }
    }
  }

  /** A digit that a completion puts in an empty cell is a safe candidate for
      that cell: a completion never contradicts its own givens. */
  lemma CompletionValueIsSafe(b: Board, s: Board, row: int, col: int)
    requires Completion(s, b) && InRange(row, col) && b[row][col] == 0
    ensures 1 <= s[row][col] <= 9
    ensures Safe(b, row, col, s[row][col])
  {
    var d := s[row][col];
    forall i, j | 0 <= i < 9 && 0 <= j < 9 && Sees(row, col, i, j)
      ensures b[i][j] != d
    {
      if b[i][j] != 0 {
        assert s[i][j] == b[i][j];
        assert i != row || j != col;
      }
    }
    SafeMeansUnseen(b, row, col, d);
  }

  /** A complete board is the only board that extends it. */
  lemma CompleteHasOneExtension(b: Board, s: Board)
    requires Complete(b) && Extends(s, b)
    ensures s == b
  {
    SameCellsSameBoard(s, b);
  }

  // ---------------------------------------------------------------------------
  // Empty-cell count (the solver's termination measure)
  // ---------------------------------------------------------------------------

  function RowZeros(row: seq<int>): nat {
    if |row| == 0 then 0 else (if row[0] == 0 then 1 else 0) + RowZeros(row[1..])
  }

  function Zeros(b: Board): nat {
    if |b| == 0 then 0 else RowZeros(b[0]) + Zeros(b[1..])
  }

  lemma {:induction false} RowZerosFill(row: seq<int>, c: int, v: int)
    requires 0 <= c < |row| && row[c] == 0 && v != 0
    ensures RowZeros(row[c := v]) + 1 == RowZeros(row)
    decreases |row|
  {
    if c > 0 {
      RowZerosFill(row[1..], c - 1, v);
      assert row[c := v][1..] == row[1..][c - 1 := v];
    } else {
      assert row[c := v][1..] == row[1..];
    }
  }

  lemma {:induction false} ZerosReplaceRow(b: Board, r: int, newRow: seq<int>)
    requires 0 <= r < |b|
    ensures Zeros(b[r := newRow]) + RowZeros(b[r]) == Zeros(b) + RowZeros(newRow)
    decreases |b|
  {
    if r > 0 {
      ZerosReplaceRow(b[1..], r - 1, newRow);
      assert b[r := newRow][1..] == b[1..][r - 1 := newRow];
    } else {
      assert b[r := newRow][1..] == b[1..];
    }
  }

  /** Filling an empty cell lowers the empty-cell count. */
  lemma PlaceDecreasesZeros(b: Board, row: int, col: int, v: int)
    requires IsGrid(b) && InRange(row, col) && b[row][col] == 0 && v != 0
    ensures Zeros(Place(b, row, col, v)) < Zeros(b)
  {
    RowZerosFill(b[row], col, v);
    ZerosReplaceRow(b, row, b[row][col := v]);
  }

  // ---------------------------------------------------------------------------
  // `find_empty`
  // ---------------------------------------------------------------------------

  /** Position of the first 0 in `row` at or after `j`. */
  function FirstZero(row: seq<int>, j: nat): (r: Option<nat>)
    requires j <= |row|
    ensures r.None? ==> forall x :: j <= x < |row| ==> row[x] != 0
    ensures r.Some? ==> j <= r.value < |row| && row[r.value] == 0 && forall x :: j <= x < r.value ==> row[x] != 0
    decreases |row| - j
  {
    if j == |row| then None
    else if row[j] == 0 then Some(j)
    else FirstZero(row, j + 1)
  }

  /** The first empty cell in row-major order among rows `i` and later. */
  function FindEmptyFrom(b: Board, i: nat): (r: Option<Cell>)
    requires IsGrid(b) && i <= 9
    ensures r.None? ==> forall x, y :: 0 <= x < 9 && 0 <= y < 9 && i <= x ==> b[x][y] != 0
    ensures r.Some? ==> InRange(r.value.row, r.value.col) && i <= r.value.row && b[r.value.row][r.value.col] == 0
    ensures r.Some? ==> forall x, y :: 0 <= x < 9 && 0 <= y < 9 && i <= x && (x < r.value.row || (x == r.value.row && y < r.value.col)) ==> b[x][y] != 0
    decreases 9 - i
  {
    if i == 9 then None
    else match FirstZero(b[i], 0)
      case Some(j) => Some(Cell(i, j))
      case None => FindEmptyFrom(b, i + 1)
  }

  /** `find_empty`: the first empty cell in row-major order, or None exactly
      when the board has no empty cell. */
  function FindEmpty(b: Board): (r: Option<Cell>)
    requires IsGrid(b)
    ensures r.None? <==> Complete(b)
    ensures r.Some? ==> InRange(r.value.row, r.value.col) && b[r.value.row][r.value.col] == 0
    ensures r.Some? ==> forall x, y :: 0 <= x < 9 && 0 <= y < 9 && (x < r.value.row || (x == r.value.row && y < r.value.col)) ==> b[x][y] != 0
  {
    FindEmptyFrom(b, 0)
  }

  // ---------------------------------------------------------------------------
  // `check_win`
  // ---------------------------------------------------------------------------

  /** `check_win`: compares the board with the solution cell by cell, which
      is the same as the two boards being equal. */
  function CheckWin(board: Board, solution: Board): (win: bool)
    requires IsGrid(board) && IsGrid(solution)
    ensures win <==> board == solution
  {
    var same := forall i, j | 0 <= i < 9 && 0 <= j < 9 :: board[i][j] == solution[i][j];
    if same then
      SameCellsSameBoard(board, solution);
      true
    else false
  }
}

=== FILE: moves.dfy ===
/** The move handling of `receive` and the elimination check
    `check_game_over`. */
module Moves {
  import opened Wrappers
  import opened Grid
  import opened Rooms

  /** The players of a room who have run out of chances. */
  function Eliminated(players: map<PlayerId, PlayerState>): (r: set<PlayerId>)
    ensures forall p :: p in r <==> p in players && players[p].eliminated
  {
    set p | p in players && players[p].eliminated
  }

  /** The players of a room still in the game. */
  function Alive(players: map<PlayerId, PlayerState>): (r: set<PlayerId>)
    ensures forall p :: p in r <==> p in players && !players[p].eliminated
  {
    set p | p in players && !players[p].eliminated
  }

  /** The eliminated and the live players split the room. */
  lemma SplitCount(players: map<PlayerId, PlayerState>)
    ensures |Eliminated(players)| + |Alive(players)| == |players|
  {
    assert Eliminated(players) + Alive(players) == players.Keys;
    assert Eliminated(players) * Alive(players) == {};
  }

  /** A set with one element holds nothing else. */
  lemma SingletonHoldsOne<T>(s: set<T>, x: T)
    requires |s| == 1 && x in s
    ensures s == {x}
  {
    assert |s - {x}| == 0;
  }

  /** `check_game_over`: the game ends by elimination exactly when all but one
      player of the room are eliminated, and the winner named is the one
      player still in the game. */
  function CheckGameOver(players: map<PlayerId, PlayerState>): (r: Option<PlayerId>)
    ensures r.Some? <==> |Eliminated(players)| == |players| - 1
    ensures r.Some? ==> r.value in players && !players[r.value].eliminated
    ensures r.Some? ==> forall q :: q in players && !players[q].eliminated ==> q == r.value
  {
    if |Eliminated(players)| == |players| - 1 then
      SplitCount(players);
      var alive := Alive(players);
      var w :| w in alive;
      SingletonHoldsOne(alive, w);
      Some(w)
    else None
  }

  /** What a move needs from the tables: the room and the player exist, the
      cell is on the board, and a player still in the game finds a solution
      stored (the source indexes `solved_boards[room]` without a check). */
  predicate MoveAllowed(reg: Registry, id: RoomId, player: PlayerId, row: int, col: int) {
    && id in reg
    && player in reg[id].players
    && InRange(row, col)
    && (reg[id].players[player].eliminated ||
          (reg[id].solution.Some? && IsGrid(reg[id].solution.value) && IsGrid(reg[id].players[player].board)))
  }

  /** The mover's state after a move by a player still in the game: a value
      equal to the solution's is written into that one cell of the player's
      own board; any other value costs exactly one chance, and the player is
      eliminated when none is left. */
  function Moved(st: PlayerState, solution: Board, row: int, col: int, value: int): (st': PlayerState)
    requires IsGrid(solution) && IsGrid(st.board) && InRange(row, col)
    ensures solution[row][col] == value ==>
              && IsGrid(st'.board)
              && st'.board[row][col] == value
              && (forall i, j :: 0 <= i < 9 && 0 <= j < 9 && (i != row || j != col) ==> st'.board[i][j] == st.board[i][j])
              && st'.chances == st.chances && st'.eliminated == st.eliminated
    ensures solution[row][col] != value ==>
              && st'.board == st.board
              && st'.chances == st.chances - 1
              && (st'.eliminated <==> st.eliminated || st'.chances == 0)
  {
    if solution[row][col] == value then st.(board := Place(st.board, row, col, value))
    else
      var chances := st.chances - 1;
      st.(chances := chances, eliminated := if chances == 0 then true else st.eliminated)
  }

  /** The `'move' in data` branch of `receive`. An eliminated player gets an
      error and nothing changes. A value equal to the solution's is written to
      the player's own board, and either wins the game or is acknowledged. Any
      other value costs a chance; the last chance eliminates the player, after
      which the room is checked for a game over. Only the mover's own state
      changes. */
  function ApplyMove(reg: Registry, id: RoomId, player: PlayerId, row: int, col: int, value: int): (r: Step)
    requires MoveAllowed(reg, id, player, row, col)
    ensures reg[id].players[player].eliminated ==>
              r == Step(reg, [ToPlayer(player, Error("You have been eliminated"))])
    ensures r.reg.Keys == reg.Keys
    ensures forall other :: other in reg && other != id ==> r.reg[other] == reg[other]
    ensures r.reg[id].members == reg[id].members
    ensures r.reg[id].puzzle == reg[id].puzzle && r.reg[id].solution == reg[id].solution
    ensures r.reg[id].players.Keys == reg[id].players.Keys
    ensures forall q :: q in reg[id].players && q != player ==> r.reg[id].players[q] == reg[id].players[q]
    ensures var st, st' := reg[id].players[player], r.reg[id].players[player];
            && (!st.eliminated && reg[id].solution.value[row][col] == value ==>
                  && IsGrid(st'.board)
                  && st'.board[row][col] == value
                  && (forall i, j :: 0 <= i < 9 && 0 <= j < 9 && (i != row || j != col) ==> st'.board[i][j] == st.board[i][j])
                  && st'.chances == st.chances && st'.eliminated == st.eliminated)
            && (!st.eliminated && reg[id].solution.value[row][col] != value ==>
                  && st'.board == st.board
                  && st'.chances == st.chances - 1
                  && (st'.eliminated <==> st'.chances == 0))
    ensures var st, st' := reg[id].players[player], r.reg[id].players[player];
            !st.eliminated && reg[id].solution.value[row][col] == value ==>
              r.events == if st'.board == reg[id].solution.value then [ToRoom(id, GameOver(player))]
                          else [ToPlayer(player, MoveResult(true, row, col, value, st.chances, None))]
    ensures var st, st' := reg[id].players[player], r.reg[id].players[player];
            !st.eliminated && reg[id].solution.value[row][col] != value ==>
              r.events == [ToPlayer(player, MoveResult(false, row, col, value, st'.chances, Some("Wrong move!")))]
                          + (if st'.chances == 0 && CheckGameOver(r.reg[id].players).Some?
                             then [ToRoom(id, GameOver(CheckGameOver(r.reg[id].players).value))] else [])
  {
    var room := reg[id];
    var st := room.players[player];
    if st.eliminated then Step(reg, [ToPlayer(player, Error("You have been eliminated"))])
    else
      var solution := room.solution.value;
      var st' := Moved(st, solution, row, col, value);
      var reg' := reg[id := room.(players := room.players[player := st'])];
      if solution[row][col] == value then
        if CheckWin(st'.board, solution) then Step(reg', [ToRoom(id, GameOver(player))])
        else Step(reg', [ToPlayer(player, MoveResult(true, row, col, value, st'.chances, None))])
      else
        var result := ToPlayer(player, MoveResult(false, row, col, value, st'.chances, Some("Wrong move!")));
        if st'.chances == 0 then
          match CheckGameOver(reg'[id].players)
          case Some(winner) => Step(reg', [result, ToRoom(id, GameOver(winner))])
          case None => Step(reg', [result])
        else Step(reg', [result])
  }

  /** Some event of the list announces a game over. */
  predicate AnnouncesGameOver(events: seq<Event>, id: RoomId, winner: PlayerId) {
    ToRoom(id, GameOver(winner)) in events
  }

  /** A correct move wins exactly when it completes the player's board to the
      solution; then the mover is announced as the winner. */
  lemma CorrectMoveWinsIffSolved(reg: Registry, id: RoomId, player: PlayerId, row: int, col: int, value: int)
    requires MoveAllowed(reg, id, player, row, col)
    requires !reg[id].players[player].eliminated && reg[id].solution.value[row][col] == value
    ensures (AnnouncesGameOver(ApplyMove(reg, id, player, row, col, value).events, id, player)
             <==> ApplyMove(reg, id, player, row, col, value).reg[id].players[player].board == reg[id].solution.value)
  {
  }

  /** In a two-player room, the move that takes a player's last chance while
      the opponent is still in the game announces the opponent as the winner. */
  lemma LastChanceHandsWinToOpponent(reg: Registry, id: RoomId, player: PlayerId, opponent: PlayerId, row: int, col: int, value: int)
    requires MoveAllowed(reg, id, player, row, col)
    requires |reg[id].players| <= 2
    requires opponent in reg[id].players && opponent != player && !reg[id].players[opponent].eliminated
    requires !reg[id].players[player].eliminated && reg[id].players[player].chances == 1
    requires reg[id].solution.value[row][col] != value
    ensures AnnouncesGameOver(ApplyMove(reg, id, player, row, col, value).events, id, opponent)
  {
    var room := reg[id];
    var st' := Moved(room.players[player], room.solution.value, row, col, value);
    var players' := room.players[player := st'];
    LastStandingWins(players', player, opponent);
    assert ApplyMove(reg, id, player, row, col, value).reg[id].players == players';
  }

  /** In a room of at most two, once one player is eliminated and the other
      is not, `check_game_over` names the other. */
  lemma LastStandingWins(players: map<PlayerId, PlayerState>, loser: PlayerId, winner: PlayerId)
    requires |players| <= 2 && loser in players && winner in players && loser != winner
    requires players[loser].eliminated && !players[winner].eliminated
    ensures CheckGameOver(players) == Some(winner)
  {
    var both, rest := {loser, winner}, players.Keys - {loser, winner};
    assert players.Keys == both + rest && both * rest == {};
    assert |both| == 2;
    assert players.Keys == both;
    assert Eliminated(players) == {loser};
  }

  /** A move by a player still in the game keeps the player invariant: a
      correct digit agrees with the solution and, as the solution keeps the
      puzzle's givens, cannot overwrite a given with something else. */
  lemma MovedKeepsPlayerInv(room: Room, st: PlayerState, row: int, col: int, value: int)
    requires RoomInv(room) && room.solution.Some?
    requires PlayerInv(room, st) && !st.eliminated && InRange(row, col)
    ensures PlayerInv(room, Moved(st, room.solution.value, row, col, value))
  {
  }

  /** Replacing one player's state by one that keeps the player invariant
      keeps the room invariant. */
  lemma ReplacePlayerKeepsRoomInv(room: Room, player: PlayerId, st: PlayerState)
    requires RoomInv(room) && player in room.players && PlayerInv(room, st)
    ensures RoomInv(room.(players := room.players[player := st]))
  {
    var r := room.(players := room.players[player := st]);
    forall p | p in r.players
      ensures PlayerInv(r, r.players[p])
    {
      if p != player {
        assert PlayerInv(room, room.players[p]);
      }
    }
  }

  /** A move keeps the room invariant. */
  lemma ApplyMovePreservesInv(reg: Registry, id: RoomId, player: PlayerId, row: int, col: int, value: int)
    requires Inv(reg)
    requires MoveAllowed(reg, id, player, row, col)
    ensures Inv(ApplyMove(reg, id, player, row, col, value).reg)
  {
    var room := reg[id];
    var st := room.players[player];
    if !st.eliminated {
      assert RoomInv(room) && PlayerInv(room, st);
      var st' := Moved(st, room.solution.value, row, col, value);
      MovedKeepsPlayerInv(room, st, row, col, value);
      ReplacePlayerKeepsRoomInv(room, player, st');
      UpdateKeepsInv(reg, id, room.(players := room.players[player := st']));
    }
  }
}

=== FILE: rooms.dfy ===
/** The class-level room tables of `GameConsumer` and the transitions that
    add and remove players: `connect`, `disconnect` and the commit of a
    generated board. The source keeps four dictionaries keyed by room name
    (`rooms`, `game_boards`, `solved_boards`, `player_states`) that are created
    and deleted together; here they are one map from room name to a `Room`
    record. Channel-layer sends become returned `Event` values. */
module Rooms {
  import opened Wrappers
  import opened Grid
  import opened Generator

  type PlayerId = string
  type RoomId = string

  /** One entry of `player_states[room]`. */
  datatype PlayerState = PlayerState(board: Board, chances: int, eliminated: bool)

  /** One room: its member set, the stored puzzle and solution (None until the
      second player arrives), and the per-player states. */
  datatype Room = Room(
    members: set<PlayerId>,
    puzzle: Option<Board>,
    solution: Option<Board>,
    players: map<PlayerId, PlayerState>)

  type Registry = map<RoomId, Room>

  /** The JSON messages the consumer sends; `BoardUpdate` carries the chances
      only when it is sent straight to one player. */
  datatype Message =
    | Accept
    | Close
    | BoardUpdate(board: Board, ownChances: Option<int>)
    | MoveResult(success: bool, row: int, col: int, value: int, chancesLeft: int, note: Option<string>)
    | Error(text: string)
    | GameOver(winner: PlayerId)
    | PlayerUpdate(count: int)

  /** A message to the connecting player alone, or to the whole room group. */
  datatype Event = ToPlayer(player: PlayerId, message: Message) | ToRoom(room: RoomId, message: Message)

  /** A registry after a transition, and the messages the transition sent. */
  datatype Step = Step(reg: Registry, events: seq<Event>)

  /** The record a room starts with in `connect`. */
  function NewRoom(): (r: Room)
    ensures r.members == {} && r.players == map[]
    ensures r.puzzle.None? && r.solution.None?
  {
    Room({}, None, None, map[])
  }

  /** The state `connect` gives a newly admitted player. */
  function FreshPlayer(puzzle: Option<Board>): (st: PlayerState)
    ensures st.chances == 3 && !st.eliminated
    ensures puzzle.Some? ==> st.board == puzzle.value
    ensures puzzle.None? ==> IsGrid(st.board) && forall i, j :: 0 <= i < 9 && 0 <= j < 9 ==> st.board[i][j] == 0
  {
    PlayerState(if puzzle.Some? then puzzle.value else EmptyBoard(), 3, false)
  }

  // ---------------------------------------------------------------------------
  // Invariant
  // ---------------------------------------------------------------------------

  /** What every player state of a room keeps: chances in 0..3, eliminated
      exactly at 0 chances, a 9x9 board, and, once a puzzle exists, a board
      that keeps the puzzle's givens and agrees with the solution wherever it
      is filled. */
  ghost predicate PlayerInv(room: Room, st: PlayerState) {
    && 0 <= st.chances <= 3
    && (st.eliminated <==> st.chances == 0)
    && IsGrid(st.board)
    && (room.solution.Some? && room.puzzle.Some? ==>
          Extends(room.solution.value, st.board) && Extends(st.board, room.puzzle.value))
  }

  /** At most two members, exactly one state per member, a puzzle exactly
      when there is a solution, and then a valid puzzle with the solution as a
      valid completion; every player state keeps `PlayerInv`. A brand-new room
      is consistent. */
  ghost predicate Consistent(room: Room) {
    && |room.members| <= 2
    && room.players.Keys == room.members
    && (room.puzzle.Some? <==> room.solution.Some?)
    && (room.solution.Some? ==>
          ValidPartial(room.puzzle.value) && Completion(room.solution.value, room.puzzle.value))
    && forall p :: p in room.players ==> PlayerInv(room, room.players[p])
  }

  /** A stored room is consistent and has at least one member. */
  ghost predicate RoomInv(room: Room) {
    room.members != {} && Consistent(room)
  }

  ghost predicate Inv(reg: Registry) {
    forall id :: id in reg ==> RoomInv(reg[id])
  }

  // ---------------------------------------------------------------------------
  // connect
  // ---------------------------------------------------------------------------

  /** The registry after a join attempt, and whether the player was admitted. */
  datatype Admission = Admission(reg: Registry, admitted: bool)

  /** A player admitted to a room: added to the members with a fresh state. */
  function Admit(room: Room, player: PlayerId): (r: Room)
    ensures r.members == room.members + {player}
    ensures r.players.Keys == room.players.Keys + {player}
    ensures r.players[player] == FreshPlayer(room.puzzle)
    ensures forall q :: q in room.players && q != player ==> r.players[q] == room.players[q]
    ensures r.puzzle == room.puzzle && r.solution == room.solution
  {
    room.(members := room.members + {player}, players := room.players[player := FreshPlayer(room.puzzle)])
  }

  /** The table updates of `connect`: create the room if it is missing; turn
      the player away if the room already has two members; otherwise admit
      the player. No other room and no other player changes. */
  function Join(reg: Registry, id: RoomId, player: PlayerId): (r: Admission)
    ensures !r.admitted <==> id in reg && |reg[id].members| >= 2
    ensures !r.admitted ==> r.reg == reg
    ensures r.admitted ==> id in r.reg
    ensures r.admitted && id in reg ==> r.reg[id].members == reg[id].members + {player}
    ensures r.admitted && id !in reg ==> r.reg[id].members == {player}
    ensures r.admitted ==> r.reg[id].players.Keys == (if id in reg then reg[id].players.Keys else {}) + {player}
    ensures r.admitted ==> r.reg[id].players[player] == FreshPlayer(r.reg[id].puzzle)
    ensures r.admitted && id in reg ==>
              && r.reg[id].puzzle == reg[id].puzzle && r.reg[id].solution == reg[id].solution
              && forall q :: q in reg[id].players && q != player ==> r.reg[id].players[q] == reg[id].players[q]
    ensures r.admitted && id !in reg ==> r.reg[id].puzzle.None? && r.reg[id].solution.None?
    ensures forall other :: other != id ==> (other in r.reg <==> other in reg)
    ensures forall other :: other != id && other in reg ==> r.reg[other] == reg[other]
  {
    var room := if id in reg then reg[id] else NewRoom();
    if |room.members| >= 2 then Admission(reg, false)
    else Admission(reg[id := Admit(room, player)], true)
  }

  /** The commit at the end of a successful `initial_board_setup`: store the
      puzzle and its solution, and overwrite every current player's board with
      a copy of the puzzle. Members, chances and elimination flags stay. */
  function CommitBoard(room: Room, g: Generated): (r: Room)
    ensures r.members == room.members
    ensures r.puzzle == Some(g.puzzle) && r.solution == Some(g.solution)
    ensures r.players.Keys == room.players.Keys
    ensures forall p :: p in r.players ==>
              && r.players[p].board == g.puzzle
              && r.players[p].chances == room.players[p].chances
              && r.players[p].eliminated == room.players[p].eliminated
  {
    var players := map p | p in room.players :: room.players[p].(board := g.puzzle);
    Room(room.members, Some(g.puzzle), Some(g.solution), players)
  }

  /** `connect`: a turned-away player is closed and nothing changes. An
      admitted player is accepted; the arrival of the second member generates
      and commits a board and broadcasts it; otherwise a player joining a room
      that already has a board is sent their own copy; finally the room is told
      its member count. `generated` is what the generation step yields for this
      connection (`Generator.Generate` over its random draws, see
      `ConnectGeneratedPreservesInv`); it is read only when the second member
      arrives, and None, when every attempt failed, commits no board. */
  function Connect(reg: Registry, id: RoomId, player: PlayerId, generated: Option<Generated>): (r: Step)
    ensures !Join(reg, id, player).admitted ==> r == Step(reg, [ToPlayer(player, Close)])
    ensures Join(reg, id, player).admitted ==>
              && id in r.reg
              && r.reg[id].members == Join(reg, id, player).reg[id].members
              && |r.events| >= 2
              && r.events[0] == ToPlayer(player, Accept)
              && r.events[|r.events| - 1] == ToRoom(id, PlayerUpdate(|r.reg[id].members|))
    ensures var j := Join(reg, id, player);
            j.admitted && |j.reg[id].members| == 2 && generated.Some? ==>
              && r.reg == j.reg[id := CommitBoard(j.reg[id], generated.value)]
              && r.events == [ToPlayer(player, Accept), ToRoom(id, BoardUpdate(generated.value.puzzle, None)),
                              ToRoom(id, PlayerUpdate(2))]
    ensures var j := Join(reg, id, player);
            j.admitted && !(|j.reg[id].members| == 2 && generated.Some?) ==> r.reg == j.reg
    ensures var j := Join(reg, id, player);
            j.admitted && |j.reg[id].members| != 2 && j.reg[id].puzzle.Some? ==>
              var st := j.reg[id].players[player];
              r.events == [ToPlayer(player, Accept), ToPlayer(player, BoardUpdate(st.board, Some(st.chances))),
                           ToRoom(id, PlayerUpdate(|j.reg[id].members|))]
    ensures var j := Join(reg, id, player);
            j.admitted && ((|j.reg[id].members| == 2 && generated.None?) || (|j.reg[id].members| != 2 && j.reg[id].puzzle.None?)) ==>
              r.events == [ToPlayer(player, Accept), ToRoom(id, PlayerUpdate(|j.reg[id].members|))]
    ensures forall other :: other != id ==> (other in r.reg <==> other in reg)
    ensures forall other :: other != id && other in reg ==> r.reg[other] == reg[other]
  {
    var j := Join(reg, id, player);
    if !j.admitted then Step(reg, [ToPlayer(player, Close)])
    else
      var room := j.reg[id];
      var count := |room.members|;
      var update := ToRoom(id, PlayerUpdate(count));
      if count == 2 then
        match generated
        case Some(g) =>
          Step(j.reg[id := CommitBoard(room, g)],
               [ToPlayer(player, Accept), ToRoom(id, BoardUpdate(g.puzzle, None)), update])
        case None =>
          Step(j.reg, [ToPlayer(player, Accept), update])
      else if room.puzzle.Some? then
        var st := room.players[player];
        Step(j.reg, [ToPlayer(player, Accept), ToPlayer(player, BoardUpdate(st.board, Some(st.chances))), update])
      else
        Step(j.reg, [ToPlayer(player, Accept), update])
  }

  // ---------------------------------------------------------------------------
  // disconnect
  // ---------------------------------------------------------------------------

  /** A player removed from a room's members and player states. */
  function Drop(room: Room, player: PlayerId): (r: Room)
    ensures r.members == room.members - {player}
    ensures r.players.Keys == room.players.Keys - {player}
    ensures forall q :: q in r.players ==> r.players[q] == room.players[q]
    ensures r.puzzle == room.puzzle && r.solution == room.solution
  {
    room.(members := room.members - {player}, players := room.players - {player})
  }

  /** The table updates of `disconnect`: drop the player from the member set
      and the player states, and delete the room once no member is left. */
  function Leave(reg: Registry, id: RoomId, player: PlayerId): (r: Registry)
    ensures id !in reg ==> r == reg
    ensures id in reg ==> (id in r <==> reg[id].members - {player} != {})
    ensures id in r ==>
              && r[id].members == reg[id].members - {player}
              && r[id].players.Keys == reg[id].players.Keys - {player}
              && r[id].puzzle == reg[id].puzzle && r[id].solution == reg[id].solution
              && forall q :: q in r[id].players ==> r[id].players[q] == reg[id].players[q]
    ensures forall other :: other != id ==> (other in r <==> other in reg)
    ensures forall other :: other != id && other in reg ==> r[other] == reg[other]
  {
    if id !in reg then reg
    else
      var room' := Drop(reg[id], player);
      if |room'.members| == 0 then reg - {id} else reg[id := room']
  }

  /** `disconnect`: leave, then tell the players still in the room their new
      count; nothing is sent when the room is gone. */
  function Disconnect(reg: Registry, id: RoomId, player: PlayerId): (r: Step)
    ensures r.reg == Leave(reg, id, player)
    ensures id in r.reg ==> r.events == [ToRoom(id, PlayerUpdate(|r.reg[id].members|))]
    ensures id !in r.reg ==> r.events == []
  {
    var reg' := Leave(reg, id, player);
    Step(reg', if id in reg' then [ToRoom(id, PlayerUpdate(|reg'[id].members|))] else [])
  }

  // ---------------------------------------------------------------------------
  // Lemmas
  // ---------------------------------------------------------------------------

  /** A new player who joins and then leaves before anything else happens
      leaves the tables exactly as they were (the stored rooms are never
      empty, as `RoomInv` keeps). */
  lemma JoinThenLeaveRestores(reg: Registry, id: RoomId, player: PlayerId)
    requires id in reg ==> 0 < |reg[id].members| < 2 && player !in reg[id].members && player !in reg[id].players
    ensures Leave(Join(reg, id, player).reg, id, player) == reg
  {
    var joined := Join(reg, id, player).reg;
    if id in reg {
      DropUndoesAdmit(reg[id], player);
      assert joined == reg[id := Admit(reg[id], player)];
      RestoreEntry(reg, id, Admit(reg[id], player));
    } else {
      assert joined == reg[id := Admit(NewRoom(), player)];
      assert Drop(joined[id], player).members == {};
      RemoveNewEntry(reg, id, Admit(NewRoom(), player));
    }
  }

  lemma RestoreEntry<K, V>(m: map<K, V>, k: K, v: V)
    requires k in m
    ensures m[k := v][k := m[k]] == m
  {
  }

  lemma RemoveNewEntry<K, V>(m: map<K, V>, k: K, v: V)
    requires k !in m
    ensures m[k := v] - {k} == m
  {
  }

  /** Dropping a player who was just admitted gives back the room. */
  lemma DropUndoesAdmit(room: Room, player: PlayerId)
    requires player !in room.members && player !in room.players
    ensures Drop(Admit(room, player), player) == room
  {
    assert Drop(Admit(room, player), player).players == room.players;
  }

  /** Under the invariant, a player who is admitted into a room as its only
      member finds no puzzle there: a room that has a puzzle has had two
      members, and rooms are deleted when they empty. So for a newly connecting
      player (channel names are never reused) the `elif` branch of `connect`
      that sends the stored board to a lone player is never taken when
      `connect` runs as one step. The source awaits between adding the player
      and that test, and a partner leaving in between can still make it run. */
  lemma AloneMeansNoPuzzle(reg: Registry, id: RoomId, player: PlayerId)
    requires Inv(reg)
    requires id in reg ==> player !in reg[id].members
    requires Join(reg, id, player).admitted
    requires |Join(reg, id, player).reg[id].members| == 1
    ensures Join(reg, id, player).reg[id].puzzle.None?
  {
    if id in reg {
      assert false;
    }
  }

  /** Replacing one room by a room that keeps the invariant keeps the
      invariant of the whole registry. */
  lemma UpdateKeepsInv(reg: Registry, id: RoomId, room: Room)
    requires Inv(reg) && RoomInv(room)
    ensures Inv(reg[id := room])
  {
  }

  /** Deleting a room keeps the invariant of the rest. */
  lemma DeleteKeepsInv(reg: Registry, id: RoomId)
    requires Inv(reg)
    ensures Inv(reg - {id})
  {
  }

  lemma AdmitKeepsConsistent(room: Room, player: PlayerId)
    requires Consistent(room) && |room.members| < 2
    ensures RoomInv(Admit(room, player))
  {
    var r := Admit(room, player);
    assert |room.members + {player}| <= |room.members| + 1;
    forall p | p in r.players
      ensures PlayerInv(r, r.players[p])
    {
      if p != player {
        assert PlayerInv(room, room.players[p]);
      }
    }
  }

  lemma DropKeepsConsistent(room: Room, player: PlayerId)
    requires Consistent(room)
    ensures Consistent(Drop(room, player))
  {
    var r := Drop(room, player);
    assert r.members <= room.members;
    forall p | p in r.players
      ensures PlayerInv(r, r.players[p])
    {
      assert PlayerInv(room, room.players[p]);
    }
  }

  lemma JoinPreservesInv(reg: Registry, id: RoomId, player: PlayerId)
    requires Inv(reg)
    ensures Inv(Join(reg, id, player).reg)
  {
    if Join(reg, id, player).admitted {
      var room := if id in reg then reg[id] else NewRoom();
      AdmitKeepsConsistent(room, player);
      UpdateKeepsInv(reg, id, Admit(room, player));
    }
  }

  lemma CommitPreservesInv(room: Room, g: Generated)
    requires RoomInv(room)
    requires ValidPartial(g.puzzle) && Completion(g.solution, g.puzzle)
    ensures RoomInv(CommitBoard(room, g))
  {
    var r := CommitBoard(room, g);
    forall p | p in r.players
      ensures PlayerInv(r, r.players[p])
    {
      assert PlayerInv(room, room.players[p]);
    }
  }

  lemma ConnectPreservesInv(reg: Registry, id: RoomId, player: PlayerId, generated: Option<Generated>)
    requires Inv(reg)
    requires generated.Some? ==> ValidPartial(generated.value.puzzle) && Completion(generated.value.solution, generated.value.puzzle)
    ensures Inv(Connect(reg, id, player, generated).reg)
  {
    JoinPreservesInv(reg, id, player);
    var j := Join(reg, id, player);
    if j.admitted && |j.reg[id].members| == 2 && generated.Some? {
      CommitPreservesInv(j.reg[id], generated.value);
      UpdateKeepsInv(j.reg, id, CommitBoard(j.reg[id], generated.value));
    }
  }

  lemma DisconnectPreservesInv(reg: Registry, id: RoomId, player: PlayerId)
    requires Inv(reg)
    ensures Inv(Disconnect(reg, id, player).reg)
  {
    if id in reg {
      var room := Drop(reg[id], player);
      DropKeepsConsistent(reg[id], player);
      if room.members == {} {
        DeleteKeepsInv(reg, id);
      } else {
        UpdateKeepsInv(reg, id, room);
      }
    }
  }

  /** With the board the generator actually produces, `connect` keeps the
      invariant. */
  lemma ConnectGeneratedPreservesInv(reg: Registry, id: RoomId, player: PlayerId, attempts: seq<seq<seq<Pick>>>)
    requires Inv(reg)
    requires forall k :: 0 <= k < |attempts| ==> IsAttempt(attempts[k])
    ensures Inv(Connect(reg, id, player, Generate(attempts)).reg)
  {
    ConnectPreservesInv(reg, id, player, Generate(attempts));
  }
}

=== FILE: solver.dfy ===
/** `solve_board`: the backtracking solver that completes the generated board.
    The source mutates `self.board` in place; here the board is threaded
    through the recursion and every write and every undo is an explicit
    `Place`. */
module Solver {
  import opened Wrappers
  import opened Grid

  /** What `solve_board` returns, together with the board it leaves behind. */
  datatype Outcome = Outcome(solved: bool, board: Board)

  /** `solve_board`: fill the first empty cell in row-major order with the
      candidates 1..9 in ascending order, recurse, and undo on failure.
      Success leaves a complete board that keeps every given; failure leaves
      the board exactly as it was passed in. */
  function Solve(b: Board): (r: Outcome)
    requires IsGrid(b)
    ensures IsGrid(r.board)
    ensures r.solved ==> Complete(r.board) && Extends(r.board, b)
    ensures r.solved && ValidPartial(b) ==> Solved(r.board)
    ensures !r.solved ==> r.board == b
    ensures Complete(b) ==> r == Outcome(true, b)
    decreases Zeros(b), 10
  {
    match FindEmpty(b)
    case None => Outcome(true, b)
    case Some(cell) => TryCandidates(b, cell.row, cell.col, 1)
  }

  /** The `for num in range(1, 10)` loop of `solve_board` from `num` on, at the
      empty cell (row, col). A success puts a candidate not below `num` into
      the cell (see `CandidatesTriedInOrder` for the order). */
  function TryCandidates(b: Board, row: int, col: int, num: int): (r: Outcome)
    requires IsGrid(b) && InRange(row, col) && b[row][col] == 0 && 1 <= num <= 10
    ensures IsGrid(r.board)
    ensures r.solved ==> num <= r.board[row][col] <= 9
    ensures r.solved ==> Complete(r.board) && Extends(r.board, b)
    ensures r.solved && ValidPartial(b) ==> Solved(r.board)
    ensures !r.solved ==> r.board == b
    decreases Zeros(b), 10 - num
  {
    if num > 9 then Outcome(false, b)
    else if Safe(b, row, col, num) then
      var placed := Place(b, row, col, num);
      PlaceDecreasesZeros(b, row, col, num);
      PlaceSafeKeepsValid(b, row, col, num);
      var inner := Solve(placed);
      if inner.solved then inner
      else
        PlaceUndo(b, row, col, num);
        TryCandidates(Place(inner.board, row, col, 0), row, col, num + 1)
    else TryCandidates(b, row, col, num + 1)
  }

  /** A safe candidate whose recursive solve fails; the loop passes over it. */
  predicate Passed(b: Board, row: int, col: int, d: int)
    requires IsGrid(b) && InRange(row, col) && b[row][col] == 0 && 1 <= d <= 9
  {
    Safe(b, row, col, d) ==> !Solve(Place(b, row, col, d)).solved
  }

  /** The candidates are tried in ascending order: the digit a successful loop
      leaves in the cell is a safe candidate from `num` on, the result is that
      candidate's recursive solve, and every candidate before it was passed
      over. */
  lemma {:induction false} CandidatesTriedInOrder(b: Board, row: int, col: int, num: int)
    requires IsGrid(b) && InRange(row, col) && b[row][col] == 0 && 1 <= num <= 10
    ensures var r := TryCandidates(b, row, col, num);
            r.solved ==>
              && Safe(b, row, col, r.board[row][col])
              && Solve(Place(b, row, col, r.board[row][col])) == r
              && forall d :: num <= d < r.board[row][col] ==> Passed(b, row, col, d)
    decreases 10 - num
  {
    var r := TryCandidates(b, row, col, num);
    if num <= 9 && r.solved {
      if Safe(b, row, col, num) && Solve(Place(b, row, col, num)).solved {
        assert Place(b, row, col, num)[row][col] == num;
      } else {
        if Safe(b, row, col, num) {
          PlaceUndo(b, row, col, num);
        }
        var rest := TryCandidates(b, row, col, num + 1);
        assert r == rest;
        assert Passed(b, row, col, num);
        CandidatesTriedInOrder(b, row, col, num + 1);
        forall d | num <= d < r.board[row][col]
          ensures Passed(b, row, col, d)
        {
          if d > num {
            assert num + 1 <= d < rest.board[row][col];
          }
        }
      }
    }
  }

  /** Completeness: whenever the board has a valid completion, `solve_board`
      succeeds. */
  lemma {:induction false} SolveFindsCompletion(b: Board, s: Board)
    requires IsGrid(b) && Completion(s, b)
    ensures Solve(b).solved
    decreases Zeros(b), 10
  {
    match FindEmpty(b)
    case None =>
    case Some(cell) =>
      CompletionValueIsSafe(b, s, cell.row, cell.col);
      CandidatesFindCompletion(b, cell.row, cell.col, 1, s);
  }

  /** The candidate loop reaches the completion's digit for the cell unless an
      earlier candidate already succeeded. */
  lemma {:induction false} CandidatesFindCompletion(b: Board, row: int, col: int, num: int, s: Board)
    requires IsGrid(b) && InRange(row, col) && b[row][col] == 0
    requires Completion(s, b) && 1 <= num <= s[row][col]
    ensures TryCandidates(b, row, col, num).solved
    decreases Zeros(b), 10 - num
  {
    CompletionValueIsSafe(b, s, row, col);
    var d := s[row][col];
    if Safe(b, row, col, num) {
      var placed := Place(b, row, col, num);
      PlaceDecreasesZeros(b, row, col, num);
      if !Solve(placed).solved {
        if num == d {
          assert Extends(s, placed);
          SolveFindsCompletion(placed, s);
        }
        PlaceUndo(b, row, col, num);
        CandidatesFindCompletion(b, row, col, num + 1, s);
      }
    } else {
      CandidatesFindCompletion(b, row, col, num + 1, s);
    }
  }

  /** Failure of `solve_board` means the board has no valid completion, so
      the generator's retry is the only way forward. */
  lemma SolveFailsOnlyWithoutCompletion(b: Board)
    requires IsGrid(b)
    ensures !Solve(b).solved ==> forall s :: !Completion(s, b)
  {
    forall s | Completion(s, b)
      ensures Solve(b).solved
    {
      SolveFindsCompletion(b, s);
    }
  }
}

=== FILE: uniqueness.dfy ===
/** `has_unique_solution`: the same backtracking traversal as `solve_board`,
    run on a caller-supplied board, recording every completion it reaches in
    a `solutions` list and giving up once that list holds more than one
    board. */
module Uniqueness {
  import opened Wrappers
  import opened Grid

  /** The `solutions` list and the board the traversal leaves behind. */
  datatype SearchState = SearchState(solutions: seq<Board>, board: Board)

  /** The inner `solve(board)` of `has_unique_solution`, entered with the
      solutions recorded so far. It only ever appends (so `sols` is a prefix of
      the result), appends only completions of `b`, never grows the list past
      two boards, and resets every cell it writes. */
  function Search(b: Board, sols: seq<Board>): (r: SearchState)
    requires IsGrid(b)
    ensures r.board == b
    ensures sols <= r.solutions
    ensures |sols| <= 2 ==> |r.solutions| <= 2
    ensures forall k :: |sols| <= k < |r.solutions| ==> Complete(r.solutions[k]) && Extends(r.solutions[k], b)
    ensures ValidPartial(b) ==> forall k :: |sols| <= k < |r.solutions| ==> Solved(r.solutions[k])
    decreases Zeros(b), 10
  {
    if |sols| > 1 then SearchState(sols, b)
    else match FindEmpty(b)
      case None => SearchState(sols + [b], b)
      case Some(cell) => SearchCandidates(b, cell.row, cell.col, 1, sols)
  }

  /** The candidate loop of the inner `solve`, from `num` on, at the empty
      cell (row, col). Every completion it records carries a digit of at least
      `num` in that cell. */
  function SearchCandidates(b: Board, row: int, col: int, num: int, sols: seq<Board>): (r: SearchState)
    requires IsGrid(b) && InRange(row, col) && b[row][col] == 0 && 1 <= num <= 10
    ensures r.board == b
    ensures sols <= r.solutions
    ensures |sols| <= 2 ==> |r.solutions| <= 2
    ensures forall k :: |sols| <= k < |r.solutions| ==> Complete(r.solutions[k]) && Extends(r.solutions[k], b)
    ensures ValidPartial(b) ==> forall k :: |sols| <= k < |r.solutions| ==> Solved(r.solutions[k])
    ensures forall k :: |sols| <= k < |r.solutions| ==> IsGrid(r.solutions[k]) && r.solutions[k][row][col] >= num
    decreases Zeros(b), 10 - num
  {
    if num > 9 then SearchState(sols, b)
    else if Safe(b, row, col, num) then
      var placed := Place(b, row, col, num);
      PlaceDecreasesZeros(b, row, col, num);
      PlaceSafeKeepsValid(b, row, col, num);
      PlaceUndo(b, row, col, num);
      var inner := Search(placed, sols);
      var rest := SearchCandidates(Place(inner.board, row, col, 0), row, col, num + 1, inner.solutions);
      assert forall k :: |sols| <= k < |inner.solutions| ==> rest.solutions[k] == inner.solutions[k];
      rest
    else SearchCandidates(b, row, col, num + 1, sols)
  }

  /** `has_unique_solution`: the traversal found exactly one completion. On a
      valid partial board that is the case exactly when the board has one and
      only one valid completion. */
  function HasUniqueSolution(b: Board): (unique: bool)
    requires IsGrid(b)
    ensures ValidPartial(b) ==> (unique <==> exists s :: Completion(s, b) && forall t :: Completion(t, b) ==> t == s)
  {
    OneRecordedIffOneCompletion(b);
    |Search(b, []).solutions| == 1
  }

  /** The recorded completions are pairwise different boards. */
  ghost predicate DistinctFrom(sols: seq<Board>, from: int) {
    forall k1, k2 :: 0 <= from <= k1 < k2 < |sols| ==> sols[k1] != sols[k2]
  }

  lemma {:induction false} SearchDistinct(b: Board, sols: seq<Board>)
    requires IsGrid(b)
    ensures DistinctFrom(Search(b, sols).solutions, |sols|)
    decreases Zeros(b), 10
  {
    if |sols| <= 1 {
      match FindEmpty(b)
      case None =>
      case Some(cell) => CandidatesDistinct(b, cell.row, cell.col, 1, sols);
    }
  }

  /** Two completions recorded under different candidates differ in the
      candidate's cell; two recorded under the same candidate are distinct by
      induction. */
  lemma {:induction false} CandidatesDistinct(b: Board, row: int, col: int, num: int, sols: seq<Board>)
    requires IsGrid(b) && InRange(row, col) && b[row][col] == 0 && 1 <= num <= 10
    ensures DistinctFrom(SearchCandidates(b, row, col, num, sols).solutions, |sols|)
    decreases Zeros(b), 10 - num
  {
    if num <= 9 {
      if Safe(b, row, col, num) {
        var placed := Place(b, row, col, num);
        PlaceDecreasesZeros(b, row, col, num);
        PlaceUndo(b, row, col, num);
        var inner := Search(placed, sols);
        SearchDistinct(placed, sols);
        CandidatesDistinct(b, row, col, num + 1, inner.solutions);
        var all := SearchCandidates(b, row, col, num, sols).solutions;
        assert all == SearchCandidates(b, row, col, num + 1, inner.solutions).solutions;
        forall k1, k2 | |sols| <= k1 < k2 < |all|
          ensures all[k1] != all[k2]
        {
          if k1 < |inner.solutions| && k2 >= |inner.solutions| {
            assert all[k1] == inner.solutions[k1];
            assert all[k1][row][col] == num;
          } else if k2 < |inner.solutions| {
            assert all[k1] == inner.solutions[k1] && all[k2] == inner.solutions[k2];
          }
        }
      } else {
        CandidatesDistinct(b, row, col, num + 1, sols);
      }
    }
  }

  /** Unless the traversal stopped at two solutions, it recorded every valid
      completion of the board. */
  lemma {:induction false} SearchComplete(b: Board, sols: seq<Board>, s: Board)
    requires IsGrid(b) && Completion(s, b) && |Search(b, sols).solutions| < 2
    ensures s in Search(b, sols).solutions[|sols|..]
    decreases Zeros(b), 10
  {
    match FindEmpty(b)
    case None =>
      CompleteHasOneExtension(b, s);
    case Some(cell) =>
      CompletionValueIsSafe(b, s, cell.row, cell.col);
      CandidatesComplete(b, cell.row, cell.col, 1, sols, s);
  }

  lemma {:induction false} CandidatesComplete(b: Board, row: int, col: int, num: int, sols: seq<Board>, s: Board)
    requires IsGrid(b) && InRange(row, col) && b[row][col] == 0 && 1 <= num
    requires Completion(s, b) && num <= s[row][col]
    requires |SearchCandidates(b, row, col, num, sols).solutions| < 2
    ensures s in SearchCandidates(b, row, col, num, sols).solutions[|sols|..]
    decreases Zeros(b), 10 - num
  {
    CompletionValueIsSafe(b, s, row, col);
    var d := s[row][col];
    var all := SearchCandidates(b, row, col, num, sols).solutions;
    if Safe(b, row, col, num) {
      var placed := Place(b, row, col, num);
      PlaceDecreasesZeros(b, row, col, num);
      PlaceUndo(b, row, col, num);
      var inner := Search(placed, sols);
      assert all == SearchCandidates(b, row, col, num + 1, inner.solutions).solutions;
      if num == d {
        assert Extends(s, placed);
        SearchComplete(placed, sols, s);
        var k :| |sols| <= k < |inner.solutions| && inner.solutions[k] == s;
        assert all[k] == s;
      } else {
        CandidatesComplete(b, row, col, num + 1, inner.solutions, s);
        var k :| |inner.solutions| <= k < |all| && all[k] == s;
        assert all[k] == s;
      }
    } else {
      CandidatesComplete(b, row, col, num + 1, sols, s);
    }
  }

  /** On a valid partial board the traversal records exactly one board
      exactly when the board has one and only one valid completion. */
  lemma OneRecordedIffOneCompletion(b: Board)
    requires IsGrid(b)
    ensures ValidPartial(b) ==>
              (|Search(b, []).solutions| == 1 <==> exists s :: Completion(s, b) && forall t :: Completion(t, b) ==> t == s)
  {
    var found := Search(b, []).solutions;
    if !ValidPartial(b) {
    } else if |found| == 1 {
      var s := found[0];
      forall t | Completion(t, b)
        ensures t == s
      {
        SearchComplete(b, [], t);
      }
      assert Completion(s, b);
    } else if exists s :: Completion(s, b) && forall t :: Completion(t, b) ==> t == s {
      var s :| Completion(s, b) && forall t :: Completion(t, b) ==> t == s;
      if |found| == 0 {
        SearchComplete(b, [], s);
        assert false;
      } else {
        SearchDistinct(b, []);
        assert Completion(found[0], b) && Completion(found[1], b);
        assert false;
      }
    }
  }
}

=== FILE: wrappers.dfy ===
/** Optional values, used where the source returns `None`. */
module Wrappers {

  datatype Option<+T> = None | Some(value: T)

}
